=== FILE: README.md ===
# zone.ee Terraform provider: lifecycle model

A Dafny model of the lifecycle logic of the zone.ee registrar provider. It covers
four resources and one data source:

- `zone-ee_domain_nameservers`: a domain's whole nameserver set, replaced in full.
- `zone-ee_domain_nameserver`: one nameserver, with optional glue addresses.
- `zone-ee_domain_dnssec`: the DNSSEC switch and keys of a domain's zone.
- `zone-ee_domain`: a registered domain, where only `autorenew` can change.
- the `zone-ee_domain_dnssec` data source.

The registrar is an abstract state (`Registrar.State`). It holds:

- each domain's nameserver list;
- each domain's zone (`name`, `has_dnssec`, keys, and the `identificator`/`dnssec`
  fields the data source reads);
- each domain's record (`name`, `autorenew`, `status`, and `expires` as opaque text).

Every request the provider makes is a `Registrar.Request`. `Registrar.Effect` says
what the registrar does when it carries a request out. The replies come from a
failure oracle: a `seq<Reply>` indexed by call number within one hook, where every
call past its end gets `200`. A reply is either an HTTP status with a body or a
transport failure. A transport failure also says whether the registrar carried
the request out anyway: the client gives up after one minute
(provider/client.go:27-29), and a write can reach the registrar even though its
response never arrives.

Every lifecycle hook is a pure function. It takes the local resource state, the
registrar state and the oracle. It returns an `Executor.Outcome`: the new local
state (ID and attributes), the new registrar state, the calls it issued in order,
and the error, if any.

Plans run through `Executor.Execute`, a fold. It stops right after the first call
whose reply ends the hook. `Executor.Replay` is its reference: it issues every call
whatever the replies.

Which replies end a hook follows the code:

- A transport error always ends it.
- An HTTP status of 400 or more ends it only for reads (the response parser) and
  for the domain PUT.
- The nameserver POST, PUT and DELETE calls and the DNSSEC PUT discard their
  response, so an error status does not stop them.

Modules: `Wrappers` (Option/Result), `Registrar` (records, requests, replies, one
call's effect), `Executor` (plan runner, hook outcome), `NameserverSet`,
`SingleNameserver`, `Dnssec`, `DomainResource`, `DnssecDataSource`.

Behaviour of the code worth knowing:

- **Status handling.** A status of 400 or more ends a hook only for reads and the
  domain PUT. The nameserver writes and the DNSSEC PUT discard their response and
  carry on.
- **DNSSEC Update.** It always sends its PUT, even when the zone already matches.
- **Duplicate DNSSEC keys.** Nothing rejects them. The `key` attribute is an SDK
  set, which merges equal elements. The model takes the key list as given.
- **Data source schema.** The data source decodes the zone through `identificator`
  and `dnssec`. The resource decodes it through `name` and `has_dnssec`. The stored
  zone carries both field sets.
- **Unregistered hooks.** The provider registers neither the single-nameserver
  resource nor the data source (provider/provider.go:34-39). Both are modelled as
  written.
- **Lost responses.** A write whose response is lost to a transport error may
  still have been carried out. The hook then reports the error although the
  registrar changed, for instance a nameserver set whose POST went through.

## Model

| member | source | states |
|---|---|---|
| Registrar.Fetch | provider/client.go:56-64 | a read succeeds exactly when the reply is a status below 400, and then yields the registrar's listing; a transport error is reported as such |
| Registrar.Abort | provider/resource_domain.go:120-129 | a transport error always ends a hook, reported with its reason; a status of 400 or more ends it only for calls whose status the provider inspects: the domain PUT, reported as an update failure with the body, and reads, reported with status and body |
| Executor.Execute | provider/resource_domain_nameservers.go:67-80 | calls run in order and stop right after the first one whose reply ends the hook; every earlier call passed, no later call is issued, and the registrar state is the reference replay of exactly the issued prefix |
| NameserverSet.ReplacePlan | provider/resource_domain_nameservers.go:55-80 | the plan is one DELETE per existing record, in listing order, then one POST of the whole desired list: length existing + 1, all addressed to the domain |
| NameserverSet.ReplaceEvenWhenConverged | provider/resource_domain_nameservers.go:67-77 | when the registrar already holds exactly the desired list, every hostname is still deleted and the whole list posted again |
| NameserverSet.ReplaceExample | provider/resource_domain_nameservers.go:55-77 | replacing `ns0.example.com` by `ns1`/`ns2` plans one DELETE of ns0 and one POST of `[ns1, ns2]` |
| NameserverSet.Read | provider/resource_domain_nameservers.go:87-115 | one GET; on success `nameservers` is the registrar's hostnames in response order; the ID is never changed, even for an empty list; the registrar is untouched |
| NameserverSet.Create | provider/resource_domain_nameservers.go:41-85 | the first call is the GET of the current list; a failed GET ends Create with that call alone, the registrar and the state untouched; a successful create has the domain as ID; otherwise the ID is unchanged or the domain; zones and domain records are never touched |
| NameserverSet.Update | provider/resource_domain_nameservers.go:117-120 | Update is Create |
| NameserverSet.Delete | provider/resource_domain_nameservers.go:122-150 | one GET followed by a prefix of the DELETEs of the listed records, in order; a failed GET ends Delete with that call alone and nothing changed; the ID is cleared on success and the state is untouched on error; zones and domain records are never touched |
| NameserverSet.ReplayDeletes | provider/resource_domain_nameservers.go:67-73 | deletions that all take effect remove exactly the records under the deleted hostnames, keeping the rest in order |
| NameserverSet.ReplayReplace | provider/resource_domain_nameservers.go:67-80 | when every DELETE and the POST take effect, the domain ends holding exactly the desired hostnames, whatever it held before |
| NameserverSet.ReplayReplacePrefix | provider/resource_domain_nameservers.go:67-80 | when the calls before the k-th take effect: if the k-th does not, exactly the k hostnames deleted before it are gone; if it does, the k-th hostname is gone too, or, for the POST, the desired list is in place |
| NameserverSet.CreateIgnoresWriteStatus | provider/resource_domain_nameservers.go:67-80 | with no transport error, the GET, every DELETE, the POST and the read-back GET are all issued in order, whatever status the writes get, and the ID becomes the domain |
| NameserverSet.CreateConverges | provider/resource_domain_nameservers.go:41-85 | with every call answered, the domain ends holding exactly the desired hostnames, other domains are unchanged, the ID is the domain and the read-back list equals the desired list |
| NameserverSet.CreateStopsAtFailedDelete | provider/resource_domain_nameservers.go:67-73 | a transport failure on the k-th DELETE ends Create whatever statuses the earlier DELETEs got: calls are the GET and DELETEs 0..k with no POST, the ID is unchanged and the transport error is reported |
| NameserverSet.FailedDeleteLeaves | provider/resource_domain_nameservers.go:67-73 | when the DELETEs before a DELETE that fails in transport all went through, exactly their hostnames are gone, plus the failed one's exactly when the registrar carried it out |
| NameserverSet.RecoverAfterFailedPost | provider/resource_domain_nameservers.go:75-80 | if every DELETE went through but the POST failed in transport, Create reports an error and keeps the ID; if the POST was lost, the domain has no nameservers, a read reports an empty list and the next plan is the POST alone; if the registrar carried it out, the desired list is in place and reads back |
| NameserverSet.DeleteSucceedsIff | provider/resource_domain_nameservers.go:128-147 | Delete succeeds (and clears the ID) exactly when the GET was answered and none of the DELETEs failed in transport |
| NameserverSet.DeleteRemovesAll | provider/resource_domain_nameservers.go:122-150 | with every call answered, Delete issues one DELETE per listed record, leaves the domain with no nameservers, leaves other domains alone and clears the ID |
| NameserverSet.CreateConfined | provider/resource_domain_nameservers.go:41-85 | whatever the replies, Create leaves every other domain's nameservers as they were |
| NameserverSet.DeleteConfined | provider/resource_domain_nameservers.go:122-150 | whatever the replies, Delete leaves every other domain's nameservers as they were |
| SingleNameserver.Glue | provider/resource_domain_nameserver.go:60-66 | a glue address is sent exactly when its attribute is set, and reading it back yields the attribute |
| SingleNameserver.Observe | provider/resource_domain_nameserver.go:97-105 | no listed record clears the ID; otherwise hostname, IPv4 and IPv6 come from the first record and the ID is kept |
| SingleNameserver.ObserveFirstOnly | provider/resource_domain_nameserver.go:102-105 | records after the first do not affect the read |
| SingleNameserver.Read | provider/resource_domain_nameserver.go:79-108 | one GET addressed by `(domain, hostname)`; success exactly on a status below 400; the state is the observation of the records under that hostname |
| SingleNameserver.Create | provider/resource_domain_nameserver.go:51-77 | the first call POSTs a one-element list with this nameserver; a transport error leaves the state as is; otherwise one read-back GET follows and the ID is `domain/hostname`, or empty if the read finds nothing; zones and domain records are never touched |
| SingleNameserver.Update | provider/resource_domain_nameserver.go:110-135 | exactly one PUT addressed by the unchanged `(domain, hostname)` whose record keeps the hostname; a transport error stops there; otherwise exactly one read-back GET follows; domain and hostname survive the read and the ID is kept or cleared, never renamed; zones and domain records are never touched |
| SingleNameserver.Delete | provider/resource_domain_nameserver.go:137-153 | exactly one DELETE of `(domain, hostname)`; the ID is cleared unless it failed in transport, when the state is kept; the hostname's records are removed exactly when the registrar carried the DELETE out, and otherwise the registrar is unchanged; zones and domain records are never touched |
| SingleNameserver.CreateRoundTrip | provider/resource_domain_nameserver.go:51-77 | with every call answered and no record under the hostname, the domain's list gains exactly this record at the end, other domains are unchanged, and the declared attributes read back under `domain/hostname` |
| SingleNameserver.UpdateRoundTrip | provider/resource_domain_nameserver.go:110-135 | with every call answered on an existing hostname, its records in the domain's list become the payload in place, the domain's other records stay put, and the state reads back unchanged |
| SingleNameserver.UpdateConfined | provider/resource_domain_nameserver.go:128-134 | whatever the replies, Update leaves every other domain's nameservers as they were |
| SingleNameserver.DeleteLeavesOthers | provider/resource_domain_nameserver.go:144-150 | a delivered DELETE removes only the records under the hostname, keeps the domain's other records in order, touches no other domain and clears the ID |
| SingleNameserver.TransportErrorKeepsId | provider/resource_domain_nameserver.go:68-150 | a transport error on the write leaves the ID unchanged in Create, Update and Delete |
| Dnssec.CheckKeys | provider/resource_domain_dnssec.go:49-54 | validation passes exactly when every key's flags are 256 or 257, and otherwise names the flags of the first offending key |
| Dnssec.Payload | provider/resource_domain_dnssec.go:128-150 | the PUT body names the domain, carries `enabled` as the DNSSEC switch, and carries the declared keys when enabled and none otherwise |
| Dnssec.Observe | provider/resource_domain_dnssec.go:97-117 | no zone clears the ID; otherwise `domain` and `enabled` come from the first zone, and `key` is replaced only when DNSSEC is on and the zone has keys, else left as it was |
| Dnssec.ObserveFirstOnly | provider/resource_domain_dnssec.go:102-117 | zones after the first do not affect the read |
| Dnssec.Read | provider/resource_domain_dnssec.go:80-120 | one GET of the zone; success exactly on a status below 400; the state is the observation of the listed zone |
| Dnssec.Update | provider/resource_domain_dnssec.go:122-161 | the first call is one PUT of the whole zone; a transport error leaves the state as it was and stops there; otherwise one read-back GET follows and the ID is the domain, or empty if no zone is listed; a PUT that took effect stores the payload in the held zone (name, switch and keys, by the registrar's assumed effect), one that did not leaves the registrar unchanged; other domains' zones, nameservers and domains are never touched |
| Dnssec.Create | provider/resource_domain_dnssec.go:72-78 | Create is Update |
| Dnssec.Delete | provider/resource_domain_dnssec.go:163-167 | Delete is Update with `enabled` false |
| Dnssec.Apply | provider/resource_domain_dnssec.go:44-66 | a key with bad flags is rejected with no call made; otherwise the hook is Update |
| Dnssec.SentKeysValid | provider/resource_domain_dnssec.go:138-146 | every key in any PUT sent for a configuration has flags 256 or 257 |
| Dnssec.DeleteDisables | provider/resource_domain_dnssec.go:163-167 | Delete's PUT has DNSSEC off and no keys whatever keys were declared; with every call answered the zone ends with DNSSEC off and no keys |
| Dnssec.UpdateRoundTrip | provider/resource_domain_dnssec.go:122-161 | with every call answered on a held zone, exactly a PUT and a GET are made, the zone's name, switch and keys take the payload while the rest of the zones map, the nameservers and the domains stay as they were, and the state reads back as declared with the domain as ID |
| Dnssec.RejectedPutStillSetsId | provider/resource_domain_dnssec.go:152-160 | an error status on the PUT does not stop Update: no error, the ID is the domain, and the zone's unchanged switch is read back |
| Dnssec.ReadWithoutZone | provider/resource_domain_dnssec.go:97-100 | a read that finds no zone clears the ID without an error |
| DomainResource.DeclaredAutorenew | provider/resource_domain.go:36-41 | `autorenew` is true when the configuration does not declare it |
| DomainResource.Observe | provider/resource_domain.go:94-103 | no listed domain clears the ID; otherwise name, autorenew, expiry and status come from the first record |
| DomainResource.ObserveFirstOnly | provider/resource_domain.go:99-103 | records after the first do not affect the read |
| DomainResource.Read | provider/resource_domain.go:77-106 | one GET addressed by the ID; success exactly on a status below 400; the state is the observation of the listing |
| DomainResource.Create | provider/resource_domain.go:64-75 | the only call is the GET of the name, the registrar is unchanged, and the ID ends as the name or empty |
| DomainResource.UpdatePlan | provider/resource_domain.go:113-119 | a PUT carrying only `autorenew` is planned exactly when it changed |
| DomainResource.Update | provider/resource_domain.go:108-133 | without a change Update is a read; with one, the first call is the PUT; a PUT that is not delivered ends the hook with no read and the state kept; the registrar changes only through a PUT that took effect, and only in its domains; a delivered PUT is followed by one GET |
| DomainResource.Delete | provider/resource_domain.go:135-141 | no call, no registrar change, no error, state untouched |
| DomainResource.Apply | provider/resource_domain.go:113-119 | the planned `autorenew` is the declared value or the default; the first call is a PUT of it exactly when it differs from the state's value, and the read otherwise |
| DomainResource.DroppedAutorenewReenables | provider/resource_domain.go:36-41 | removing `autorenew` from the configuration while the state has it off sends a PUT turning it back on |
| DomainResource.CreateUnknownDomain | provider/resource_domain.go:64-97 | creating a domain the registrar does not list ends with an empty ID and no error |
| DomainResource.CreateKnownDomain | provider/resource_domain.go:64-104 | creating a listed domain keeps the name as ID and fills in the registrar's values |
| DomainResource.UpdateRoundTrip | provider/resource_domain.go:108-133 | with every call answered, a changed `autorenew` is written to the registrar and nothing else there changes, and the value reads back |
| DomainResource.RejectedUpdate | provider/resource_domain.go:125-129 | a PUT status of 400 or more is reported with its body and no read-back follows |
| DomainResource.UnchangedUpdateWritesNothing | provider/resource_domain.go:113-132 | with no change the only call is the read and the registrar is untouched |
| DomainResource.DeleteKeepsRegistration | provider/resource_domain.go:135-141 | after Delete a read by another process still finds the domain |
| DnssecDataSource.Answer | provider/data_source_domain_dnssec.go:56-63 | an empty listing is an error naming the requested domain; otherwise the ID is the requested name and `domain`/`enabled` come from the first zone's identificator and dnssec flag |
| DnssecDataSource.AnswerFirstOnly | provider/data_source_domain_dnssec.go:60-63 | zones after the first do not affect the answer |
| DnssecDataSource.Read | provider/data_source_domain_dnssec.go:39-66 | one GET; success only when it is answered and the zone exists, then the ID is the requested name; on error the state is unchanged |
| DnssecDataSource.MissingZoneIsError | provider/data_source_domain_dnssec.go:56-58 | a domain with no zone is an error naming it, never an empty ID |
| DnssecDataSource.FoundZone | provider/data_source_domain_dnssec.go:60-63 | a held zone answers with the requested name as ID and the zone's identificator (not necessarily that name) and dnssec flag |

## Left out

- HTTP transport (provider/client.go): URL building, Basic authentication, headers
  and closing bodies. A call is an abstract `Request` and its reply comes from the
  oracle. The one-minute timeout appears only as a transport failure whose
  `applied` flag says whether the registrar had carried the request out.
- JSON encoding and decoding. A decode failure on a successful read is not
  modelled. Go sends an absent key list as `null`; the model sends an empty list.
- Registrar behaviour is not in the source. The model assumes these effects:
  - a delivered write is carried out;
  - a status of 400 or more leaves the registrar unchanged;
  - a transport failure leaves it unchanged or carries the write out, as the
    oracle says;
  - POST appends records;
  - PUT of a nameserver replaces the records under that hostname;
  - DELETE removes the records under that hostname;
  - PUT of a zone or domain the registrar does not hold changes nothing;
  - a zone PUT sets `name`, `has_dnssec` and the keys and leaves `identificator`
    and `dnssec` as they were, so the data source does not see a switch made
    through the DNSSEC resource;
  - a domain PUT sets only `autorenew`.
- Provider configuration and environment-variable defaults (provider/provider.go).
- Terraform SDK machinery:
  - hashing and de-duplication of the DNSSEC `key` set, and the order of the key
    set: the model takes the keys as a list in whatever order the set yields;
  - the SDK reporting every invalid key: `Dnssec.CheckKeys` reports only the first;
  - `HasChange`: the domain Update takes `changed` as an input, which
    `DomainResource.Apply` computes by comparing the planned `autorenew` with the
    state's;
  - the `GetOk` details beyond "set means not empty";
  - import passthrough;
  - the Timeouts block;
  - dropping the state after a successful Delete (the domain Delete itself leaves
    the state as is);
  - the error `d.Set` might return in the nameserver-set Read.
- Schema validation of DNSSEC flags runs when a configuration is applied
  (`Dnssec.Apply`). Delete calls Update directly, because its key set is never
  validated again.
- Parsing of the `expires` time and its RFC 3339 formatting. `expires` is opaque
  text. The domain fields `is_renewable` and `is_delegated` are never read, so
  they are not modelled.
- Concurrency between invocations. The code has none, and there is no locking.

=== FILE: dnssec.dfy ===
/**
 * The `zone-ee_domain_dnssec` resource: the DNSSEC switch and keys of a domain's
 * zone, written as a whole in one PUT. Create is Update, and Delete is Update
 * with `enabled` turned off: disabling is the only way to remove DNSSEC.
 */
module Dnssec {
  import opened Wrappers
  import opened Registrar
  import opened Executor

  /** The resource's local state: ID and the `domain`, `enabled` and `key` attributes
      (the key set as a list, in the order the SDK set hands its elements out). */
  datatype DnssecState = DnssecState(id: string, domain: string, enabled: bool, keys: seq<DnsKey>)

  /** The only flag values the schema accepts for a key. */
  predicate ValidFlags(flags: int) {
    flags == ZoneSigningKey || flags == KeySigningKey
  }

  predicate AllValid(keys: seq<DnsKey>) {
    forall i | 0 <= i < |keys| :: ValidFlags(keys[i].flags)
  }

  /** Schema validation of the configured keys, done before any hook runs: a key
      whose flags are neither 256 nor 257 is rejected, and the model reports the
      first such key in list order. */
  function CheckKeys(keys: seq<DnsKey>): (r: Option<Error>)
    ensures r.None? <==> AllValid(keys)
    ensures r.Some? ==> exists i | 0 <= i < |keys| ::
      AllValid(keys[..i]) && !ValidFlags(keys[i].flags) && r == Some(InvalidFlags(keys[i].flags))
  {
    if keys == [] then None
    else if !ValidFlags(keys[0].flags) then
      assert AllValid(keys[..0]);
      Some(InvalidFlags(keys[0].flags))
    else
      var r := CheckKeys(keys[1..]);
      assert r.Some? ==> exists i | 1 <= i < |keys| ::
        AllValid(keys[..i]) && !ValidFlags(keys[i].flags) && r == Some(InvalidFlags(keys[i].flags)) by {
        if r.Some? {
          var j :| 0 <= j < |keys[1..]| && AllValid(keys[1..][..j])
                   && !ValidFlags(keys[1..][j].flags) && r == Some(InvalidFlags(keys[1..][j].flags));
          assert keys[1..][j] == keys[j + 1];
          var prefix := keys[..j + 1];
          forall i | 1 <= i < |prefix|
            ensures ValidFlags(prefix[i].flags)
          {
            assert prefix[i] == keys[1..][..j][i - 1];
          }
          assert AllValid(prefix);
        }
      }
      r
  }

  /** The zone the PUT carries: the domain as name, `enabled` as the DNSSEC switch,
      and the keys only when DNSSEC is on and there are some (an empty key list
      otherwise). */
  function Payload(domain: string, enabled: bool, keys: seq<DnsKey>): (z: DnsZone)
    ensures z.name == domain && z.hasDnssec == enabled
    ensures z.keys == (if enabled then keys else [])
  {
    DnsZone(domain, enabled, if enabled && |keys| > 0 then keys else [])
  }

  /** How Read maps the zones listed for the domain onto the local state: none
      clears the ID; otherwise the first zone gives `domain` and `enabled`, and its
      keys replace `key` only when DNSSEC is on and it has some. */
  function Observe(local: DnssecState, zones: seq<DnsZone>): (r: DnssecState)
    ensures zones == [] ==> r == local.(id := "")
    ensures zones != [] ==> r.id == local.id && r.domain == zones[0].name && r.enabled == zones[0].hasDnssec
    ensures zones != [] ==> r.keys == (if zones[0].hasDnssec && zones[0].keys != [] then zones[0].keys else local.keys)
  {
    if zones == [] then local.(id := "")
    else
      var z := zones[0];
      local.(domain := z.name, enabled := z.hasDnssec, keys := if z.hasDnssec && |z.keys| > 0 then z.keys else local.keys)
  }

  /** Only the first listed zone matters to Read. */
  lemma ObserveFirstOnly(local: DnssecState, first: DnsZone, rest: seq<DnsZone>)
    ensures Observe(local, [first] + rest) == Observe(local, [first])
  {
  }

  function ZoneListing(reg: State, domain: string): (zs: seq<DnsZone>)
    ensures |zs| == |reg.ZonesOf(domain)|
    ensures forall i | 0 <= i < |zs| :: zs[i] == reg.ZonesOf(domain)[i].AsDnsZone()
  {
    if domain in reg.zones then [reg.zones[domain].AsDnsZone()] else []
  }

  /** Read: GET the domain's zone and observe it. */
  function Read(local: DnssecState, reg: State, o: Oracle): (r: Outcome<DnssecState>)
    ensures r.calls == [GetZone(local.domain)]
    ensures r.reg == reg
    ensures r.err.None? <==> ReplyAt(o, 0).Delivered()
    ensures r.err.None? ==> r.local == Observe(local, ZoneListing(reg, local.domain))
    ensures r.err.Some? ==> r.local == local
  {
    var get := GetZone(local.domain);
    match Fetch(ReplyAt(o, 0), ZoneListing(reg, local.domain))
    case Failure(e) => Outcome(local, reg, [get], Some(e))
    case Success(zones) => Outcome(Observe(local, zones), reg, [get], None)
  }

  /** Update: one PUT of the whole zone; unless it fails in transport, the domain
      becomes the ID and the zone is read back. The PUT's HTTP status is not looked
      at. A PUT the registrar carried out stores the payload in the zone, even when
      its response was lost. */
  function Update(local: DnssecState, reg: State, o: Oracle): (r: Outcome<DnssecState>)
    ensures 1 <= |r.calls| && r.calls[0] == PutZone(local.domain, Payload(local.domain, local.enabled, local.keys))
    ensures !ReplyAt(o, 0).Response? ==> r.err.Some? && r.local == local && |r.calls| == 1
    ensures !ReplyAt(o, 0).TookEffect() ==> r.reg == reg
    ensures r.reg.zones.Keys == reg.zones.Keys
    ensures ReplyAt(o, 0).TookEffect() && local.domain in reg.zones ==>
              r.reg.zones[local.domain].AsDnsZone() == Payload(local.domain, local.enabled, local.keys)
    ensures local.domain in reg.zones ==>
              r.reg.zones[local.domain].identificator == reg.zones[local.domain].identificator
              && r.reg.zones[local.domain].dnssec == reg.zones[local.domain].dnssec
    ensures forall d | d != local.domain :: r.reg.ZonesOf(d) == reg.ZonesOf(d)
    ensures r.reg.nameservers == reg.nameservers && r.reg.domains == reg.domains
    ensures ReplyAt(o, 0).Response? ==> r.calls == [r.calls[0], GetZone(local.domain)]
    ensures ReplyAt(o, 0).Response? ==> r.local.id == local.domain || r.local.id == ""
  {
    var put := PutZone(local.domain, Payload(local.domain, local.enabled, local.keys));
    var x := Execute(reg, [put], o);
    if x.err.Some? then Outcome(local, x.reg, [put], x.err)
    else Then([put], Read(local.(id := local.domain), x.reg, Drop(o, 1)))
  }

  /** Create is Update: DNSSEC is switched on an existing zone, never created. */
  function Create(local: DnssecState, reg: State, o: Oracle): (r: Outcome<DnssecState>)
    ensures r == Update(local, reg, o)
  {
    Update(local, reg, o)
  }

  /** Delete turns `enabled` off and runs Update. */
  function Delete(local: DnssecState, reg: State, o: Oracle): (r: Outcome<DnssecState>)
    ensures r == Update(local.(enabled := false), reg, o)
  {
    Update(local.(enabled := false), reg, o)
  }

  /** Applying a configuration: schema validation of every key first, then Create
      or Update (the same hook). A key with bad flags is reported with no call made. */
  function Apply(local: DnssecState, reg: State, o: Oracle): (r: Outcome<DnssecState>)
    ensures !AllValid(local.keys) ==> r.calls == [] && r.reg == reg && r.local == local && r.err.Some?
    ensures AllValid(local.keys) ==> r == Update(local, reg, o)
  {
    match CheckKeys(local.keys)
    case Some(e) => Outcome(local, reg, [], Some(e))
    case None => Update(local, reg, o)
  }

  /** Every key that reaches the registrar has flags 256 or 257. */
  lemma SentKeysValid(local: DnssecState, reg: State, o: Oracle)
    ensures var r := Apply(local, reg, o);
            forall i | 0 <= i < |r.calls| :: r.calls[i].PutZone? ==> AllValid(r.calls[i].zone.keys)
  {
  }

  /** Delete sends one PUT that switches DNSSEC off and carries no keys, whatever keys
      were declared; with every call answered on a zone the registrar holds, the zone
      ends with DNSSEC off and no keys. */
  lemma DeleteDisables(local: DnssecState, reg: State, o: Oracle)
    ensures Delete(local, reg, o).calls[0] == PutZone(local.domain, DnsZone(local.domain, false, []))
    ensures Healthy(o) && local.domain in reg.zones ==>
              var z := Delete(local, reg, o).reg.zones[local.domain];
              !z.hasDnssec && z.keys == []
  {
    if Healthy(o) && local.domain in reg.zones {
      var put := PutZone(local.domain, DnsZone(local.domain, false, []));
      HealthyReplies(o, 0);
      var x := Execute(reg, [put], o);
      assert [put][..x.issued] == [put];
    }
  }

  /** With every call answered on a zone the registrar holds, Update stores the
      payload in the zone and reads back exactly the declared state under the ID
      `domain`; nothing else at the registrar changes. */
  lemma UpdateRoundTrip(local: DnssecState, reg: State, o: Oracle)
    requires Healthy(o)
    requires local.domain in reg.zones
    ensures var r := Update(local, reg, o);
            var z := r.reg.zones[local.domain];
            && r.err.None?
            && r.local == local.(id := local.domain)
            && r.calls == [PutZone(local.domain, Payload(local.domain, local.enabled, local.keys)), GetZone(local.domain)]
            && z.name == local.domain && z.hasDnssec == local.enabled
            && z.keys == (if local.enabled then local.keys else [])
            && r.reg.nameservers == reg.nameservers && r.reg.domains == reg.domains
            && r.reg.zones == reg.zones[local.domain := reg.zones[local.domain].(name := z.name, hasDnssec := z.hasDnssec, keys := z.keys)]
  {
    var put := PutZone(local.domain, Payload(local.domain, local.enabled, local.keys));
    HealthyReplies(o, 0);
    HealthyReplies(o, 1);
    var x := Execute(reg, [put], o);
    assert [put][..x.issued] == [put];
  }

  /** An error status on the PUT does not stop Update: the ID is still set and the
      unchanged zone is read back. */
  lemma RejectedPutStillSetsId(local: DnssecState, reg: State, o: Oracle)
    requires ReplyAt(o, 0).Response? && ReplyAt(o, 0).status >= 400
    requires ReplyAt(o, 1).Delivered()
    requires local.domain in reg.zones
    ensures var r := Update(local, reg, o);
            && r.err.None?
            && r.reg == reg
            && r.local.id == local.domain
            && r.local.enabled == reg.zones[local.domain].hasDnssec
  {
    var put := PutZone(local.domain, Payload(local.domain, local.enabled, local.keys));
    var x := Execute(reg, [put], o);
    assert [put][..x.issued] == [put];
  }

  /** Read with no zone listed clears the ID rather than failing. */
  lemma ReadWithoutZone(local: DnssecState, reg: State, o: Oracle)
    requires ReplyAt(o, 0).Delivered()
    requires local.domain !in reg.zones
    ensures Read(local, reg, o).err.None?
    ensures Read(local, reg, o).local == local.(id := "")
  {
  }
}

=== FILE: dnssec_data_source.dfy ===
/**
 * The `zone-ee_domain_dnssec` data source: looks up a domain's zone and reports
 * whether DNSSEC is on. Unlike the resources' reads, finding no zone is an error.
 * It decodes the zone through the `identificator` and `dnssec` fields.
 */
module DnssecDataSource {
  import opened Wrappers
  import opened Registrar
  import opened Executor

  /** The data source's state: ID, the `domain` attribute and the computed `enabled`. */
  datatype Lookup = Lookup(id: string, domain: string, enabled: bool)

  /** How the listed zones answer a lookup of `requested`: none is an error naming
      the domain; otherwise the ID becomes the requested name while `domain` and
      `enabled` come from the first zone alone. */
  function Answer(local: Lookup, zones: seq<ZoneSummary>): (r: Result<Lookup, Error>)
    ensures zones == [] <==> r.Failure?
    ensures r.Failure? ==> r.error == NoZoneFound(local.domain)
    ensures r.Success? ==> r.value.id == local.domain
    ensures r.Success? ==> r.value.domain == zones[0].identificator && r.value.enabled == zones[0].dnssec
  {
    if zones == [] then Failure(NoZoneFound(local.domain))
    else Success(Lookup(local.domain, zones[0].identificator, zones[0].dnssec))
  }

  /** Only the first listed zone matters. */
  lemma AnswerFirstOnly(local: Lookup, first: ZoneSummary, rest: seq<ZoneSummary>)
    ensures Answer(local, [first] + rest) == Answer(local, [first])
  {
  }

  function SummaryListing(reg: State, domain: string): (zs: seq<ZoneSummary>)
    ensures |zs| == |reg.ZonesOf(domain)|
    ensures forall i | 0 <= i < |zs| :: zs[i] == reg.ZonesOf(domain)[i].AsSummary()
  {
    if domain in reg.zones then [reg.zones[domain].AsSummary()] else []
  }

  /** Read: GET the zone of the requested domain and answer from it; on any error the
      state is left as it was. */
  function Read(local: Lookup, reg: State, o: Oracle): (r: Outcome<Lookup>)
    ensures r.calls == [GetZone(local.domain)]
    ensures r.reg == reg
    ensures r.err.None? ==> ReplyAt(o, 0).Delivered() && local.domain in reg.zones
    ensures r.err.None? ==> r.local.id == local.domain
    ensures r.err.Some? ==> r.local == local
  {
    var get := GetZone(local.domain);
    match Fetch(ReplyAt(o, 0), SummaryListing(reg, local.domain))
    case Failure(e) => Outcome(local, reg, [get], Some(e))
    case Success(zones) =>
      match Answer(local, zones)
      case Failure(e) => Outcome(local, reg, [get], Some(e))
      case Success(found) => Outcome(found, reg, [get], None)
  }

  /** A domain with no zone is an error naming it, never an empty ID. */
  lemma MissingZoneIsError(local: Lookup, reg: State, o: Oracle)
    requires ReplyAt(o, 0).Delivered()
    requires local.domain !in reg.zones
    ensures Read(local, reg, o).err == Some(NoZoneFound(local.domain))
    ensures Read(local, reg, o).local == local
  {
  }

  /** A held zone answers with the requested name as ID, the zone's identificator as
      `domain` (which need not be the requested name), and its `dnssec` flag. */
  lemma FoundZone(local: Lookup, reg: State, o: Oracle)
    requires ReplyAt(o, 0).Delivered()
    requires local.domain in reg.zones
    ensures var z := reg.zones[local.domain];
            Read(local, reg, o) == Outcome(Lookup(local.domain, z.identificator, z.dnssec), reg, [GetZone(local.domain)], None)
  {
  }
}

=== FILE: domain.dfy ===
/**
 * The `zone-ee_domain` resource: a registered domain. Registration is not
 * implemented, so Create only records the name and reads; `autorenew` is the one
 * attribute an update can change; Delete forgets the resource locally and leaves
 * the registration in place.
 */
module DomainResource {
  import opened Wrappers
  import opened Registrar
  import opened Executor

  /** The resource's local state: ID and the `name`, `autorenew`, `expires` and
      `status` attributes (`expires` as the text the provider reports). */
  datatype DomainState = DomainState(id: string, name: string, autorenew: bool, expires: string, status: string)

  /** `autorenew` when the configuration does not declare it. */
  const DefaultAutorenew := true

  /** The `autorenew` value a configuration yields. */
  function DeclaredAutorenew(declared: Option<bool>): (r: bool)
    ensures declared.None? ==> r == DefaultAutorenew
    ensures declared.Some? ==> r == declared.value
  {
    declared.GetOr(DefaultAutorenew)
  }

  /** How Read maps the listed domain records onto the local state: none clears
      the ID; otherwise the first record's name, autorenew, expiry and status are
      copied. */
  function Observe(local: DomainState, found: seq<DomainRecord>): (r: DomainState)
    ensures found == [] ==> r == local.(id := "")
    ensures found != [] ==> r.id == local.id && r.name == found[0].name && r.autorenew == found[0].autorenew
    ensures found != [] ==> r.expires == found[0].expires && r.status == found[0].status
  {
    if found == [] then local.(id := "")
    else
      var rec := found[0];
      local.(name := rec.name, autorenew := rec.autorenew, expires := rec.expires, status := rec.status)
  }

  /** Only the first listed record matters to Read. */
  lemma ObserveFirstOnly(local: DomainState, first: DomainRecord, rest: seq<DomainRecord>)
    ensures Observe(local, [first] + rest) == Observe(local, [first])
  {
  }

  /** Read: GET the domain named by the ID and observe it. */
  function Read(local: DomainState, reg: State, o: Oracle): (r: Outcome<DomainState>)
    ensures r.calls == [GetDomain(local.id)]
    ensures r.reg == reg
    ensures r.err.None? <==> ReplyAt(o, 0).Delivered()
    ensures r.err.None? ==> r.local == Observe(local, reg.DomainsNamed(local.id))
    ensures r.err.Some? ==> r.local == local
  {
    var get := GetDomain(local.id);
    match Fetch(ReplyAt(o, 0), reg.DomainsNamed(local.id))
    case Failure(e) => Outcome(local, reg, [get], Some(e))
    case Success(found) => Outcome(Observe(local, found), reg, [get], None)
  }

  /** Create: no registration call; the name becomes the ID and the domain is read. */
  function Create(local: DomainState, reg: State, o: Oracle): (r: Outcome<DomainState>)
    ensures r.calls == [GetDomain(local.name)]
    ensures r.reg == reg
    ensures r.local.id == local.name || r.local.id == ""
  {
    Read(local.(id := local.name), reg, o)
  }

  /** The calls Update makes: a PUT of `autorenew` alone, and only when it changed. */
  function UpdatePlan(local: DomainState, changed: bool): (plan: seq<Request>)
    ensures changed <==> plan != []
    ensures changed ==> plan == [PutDomain(local.id, local.autorenew)]
  {
    if changed then [PutDomain(local.id, local.autorenew)] else []
  }

  /** Update: run the plan; a PUT that fails in transport or answers with an error
      status ends the hook without a read; otherwise the domain is read back.
      `changed` says whether the configured `autorenew` differs from the state. */
  function Update(local: DomainState, changed: bool, reg: State, o: Oracle): (r: Outcome<DomainState>)
    ensures !changed ==> r == Read(local, reg, o)
    ensures changed ==> 1 <= |r.calls| && r.calls[0] == PutDomain(local.id, local.autorenew)
    ensures changed && !ReplyAt(o, 0).Delivered() ==> r.err.Some? && |r.calls| == 1 && r.local == local
    ensures !changed || !ReplyAt(o, 0).TookEffect() ==> r.reg == reg
    ensures r.reg.nameservers == reg.nameservers && r.reg.zones == reg.zones
    ensures changed && ReplyAt(o, 0).Delivered() ==> r.calls == [r.calls[0], GetDomain(local.id)]
  {
    var plan := UpdatePlan(local, changed);
    var x := Execute(reg, plan, o);
    assert x.issued == |plan| && plan[..x.issued] == plan;
    assert changed ==> x.reg == Step(reg, plan[0], ReplyAt(o, 0));
    if x.err.Some? then Outcome(local, x.reg, plan[..x.issued], x.err)
    else Then(plan, Read(local, x.reg, Drop(o, |plan|)))
  }

  /** Applying a configuration: the planned `autorenew` is the declared value or
      the default, and Update runs with it, changed exactly when it differs from
      the value in the state. */
  function Apply(local: DomainState, declared: Option<bool>, reg: State, o: Oracle): (r: Outcome<DomainState>)
    ensures var want := DeclaredAutorenew(declared);
            && 1 <= |r.calls|
            && r.calls[0] == (if want == local.autorenew then GetDomain(local.id) else PutDomain(local.id, want))
  {
    var want := DeclaredAutorenew(declared);
    Update(local.(autorenew := want), want != local.autorenew, reg, o)
  }

  /** Removing `autorenew` from a configuration whose state has it off turns it
      back on at the registrar: the default applies. */
  lemma DroppedAutorenewReenables(local: DomainState, reg: State, o: Oracle)
    requires !local.autorenew
    ensures Apply(local, None, reg, o).calls[0] == PutDomain(local.id, true)
  {
  }

  /** Delete: no registrar call at all. */
  function Delete(local: DomainState, reg: State, o: Oracle): (r: Outcome<DomainState>)
    ensures r.calls == [] && r.reg == reg && r.err.None? && r.local == local
  {
    Outcome(local, reg, [], None)
  }

  /** Create of a domain the registrar does not list ends with an empty ID and no error. */
  lemma CreateUnknownDomain(local: DomainState, reg: State, o: Oracle)
    requires ReplyAt(o, 0).Delivered()
    requires local.name !in reg.domains
    ensures Create(local, reg, o).err.None?
    ensures Create(local, reg, o).local.id == ""
  {
  }

  /** Create of a listed domain keeps its name as ID and fills in the registrar's values. */
  lemma CreateKnownDomain(local: DomainState, reg: State, o: Oracle)
    requires ReplyAt(o, 0).Delivered()
    requires local.name in reg.domains
    ensures var r := Create(local, reg, o);
            var rec := reg.domains[local.name];
            && r.err.None?
            && r.local == DomainState(local.name, rec.name, rec.autorenew, rec.expires, rec.status)
  {
  }

  /** A changed `autorenew` reaches the registrar and reads back: with every call
      answered on a domain the registrar holds, its autorenew becomes the declared
      value, nothing else at the registrar changes, and the state shows the value. */
  lemma UpdateRoundTrip(local: DomainState, reg: State, o: Oracle)
    requires Healthy(o)
    requires local.id in reg.domains
    ensures var r := Update(local, true, reg, o);
            var rec := reg.domains[local.id];
            && r.err.None?
            && r.calls == [PutDomain(local.id, local.autorenew), GetDomain(local.id)]
            && r.reg.domains == reg.domains[local.id := rec.(autorenew := local.autorenew)]
            && r.reg.nameservers == reg.nameservers && r.reg.zones == reg.zones
            && r.local.autorenew == local.autorenew
  {
    var put := PutDomain(local.id, local.autorenew);
    HealthyReplies(o, 0);
    HealthyReplies(o, 1);
    var x := Execute(reg, [put], o);
    assert [put][..x.issued] == [put];
  }

  /** An error status on the PUT is reported with its body, and no read follows. */
  lemma RejectedUpdate(local: DomainState, reg: State, o: Oracle)
    requires ReplyAt(o, 0).Response? && ReplyAt(o, 0).status >= 400
    ensures var r := Update(local, true, reg, o);
            && r.err == Some(UpdateRejected(ReplyAt(o, 0).body))
            && r.calls == [PutDomain(local.id, local.autorenew)]
            && r.reg == reg && r.local == local
  {
  }

  /** With no change to `autorenew`, Update writes nothing: its only call is the read. */
  lemma UnchangedUpdateWritesNothing(local: DomainState, reg: State, o: Oracle)
    ensures var r := Update(local, false, reg, o);
            && r.calls == [GetDomain(local.id)]
            && r.reg == reg
  {
  }

  /** Delete leaves the registration in place: a Read by another process right after
      still finds the domain. */
  lemma DeleteKeepsRegistration(local: DomainState, reg: State, o: Oracle, other: Oracle)
    requires local.id in reg.domains
    requires ReplyAt(other, 0).Delivered()
    ensures var after := Delete(local, reg, o);
            var r := Read(local, after.reg, other);
            && r.err.None?
            && r.local.id == local.id
            && r.local.autorenew == reg.domains[local.id].autorenew
  {
  }
}

=== FILE: executor.dfy ===
/**
 * Running a plan of registrar calls in order, stopping at the first call whose
 * reply ends the hook, and the shape every lifecycle hook returns.
 */
module Executor {
  import opened Wrappers
  import opened Registrar

  /** What a lifecycle hook leaves behind: the resource's local state (its ID and
      attributes), the registrar's state, the calls it issued in order, and the
      error it reported, if any. */
  datatype Outcome<S> = Outcome(local: S, reg: State, calls: seq<Request>, err: Option<Error>)

  /** `next` preceded by the calls `sent` before it. */
  function Then<S>(sent: seq<Request>, next: Outcome<S>): Outcome<S> {
    next.(calls := sent + next.calls)
  }

  /** Reference semantics: every call of `reqs` is issued, whatever the replies;
      the registrar carries out the ones that took effect. */
  function Replay(s: State, reqs: seq<Request>, o: Oracle): State
    decreases |reqs|
  {
    if reqs == [] then s else Replay(Step(s, reqs[0], ReplyAt(o, 0)), reqs[1..], Drop(o, 1))
  }

  /** The result of running a plan: the registrar's state, how many calls were
      issued (the failing one included), and the error that stopped the run. */
  datatype Execution = Execution(reg: State, issued: nat, err: Option<Error>)

  /** Run `plan` in order, the i-th call receiving `ReplyAt(o, i)`, and stop right
      after the first call whose reply is an error for it. */
  function Execute(s: State, plan: seq<Request>, o: Oracle): (r: Execution)
    ensures r.issued <= |plan|
    ensures r.reg == Replay(s, plan[..r.issued], o)
    ensures r.err.None? ==> r.issued == |plan|
    ensures r.err.None? ==> forall j | 0 <= j < |plan| :: Abort(plan[j], ReplyAt(o, j)).None?
    ensures r.err.Some? ==> 0 < r.issued && r.err == Abort(plan[r.issued - 1], ReplyAt(o, r.issued - 1))
    ensures forall j | 0 <= j < r.issued - 1 :: Abort(plan[j], ReplyAt(o, j)).None?
    decreases |plan|
  {
    if plan == [] then Execution(s, 0, None)
    else
      var reply := ReplyAt(o, 0);
      var e := Abort(plan[0], reply);
      if e.Some? then
        assert plan[..1][1..] == [];
        Execution(Step(s, plan[0], reply), 1, e)
      else
        var rest := Execute(Step(s, plan[0], reply), plan[1..], Drop(o, 1));
        assert plan[..rest.issued + 1][1..] == plan[1..][..rest.issued];
        Execution(rest.reg, rest.issued + 1, rest.err)
  }

  /** The run stops exactly at the first call whose reply ends it. */
  lemma ExecuteStopsAt(s: State, plan: seq<Request>, o: Oracle, k: nat)
    requires k < |plan|
    requires Abort(plan[k], ReplyAt(o, k)).Some?
    requires forall j | 0 <= j < k :: Abort(plan[j], ReplyAt(o, j)).None?
    ensures Execute(s, plan, o).issued == k + 1
    ensures Execute(s, plan, o).err == Abort(plan[k], ReplyAt(o, k))
  {
  }

  /** Replaying two plans one after the other is replaying their concatenation. */
  lemma {:induction false} ReplayAppend(s: State, a: seq<Request>, b: seq<Request>, o: Oracle)
    ensures Replay(s, a + b, o) == Replay(Replay(s, a, o), b, Drop(o, |a|))
    decreases |a|
  {
    if a == [] {
      assert a + b == b;
      assert Drop(o, 0) == o || |o| == 0;
      ReplayOracleExt(s, b, o, Drop(o, 0));
    } else {
      assert (a + b)[1..] == a[1..] + b;
      ReplayAppend(Step(s, a[0], ReplyAt(o, 0)), a[1..], b, Drop(o, 1));
      ReplayOracleExt(Replay(s, a, o), b, Drop(Drop(o, 1), |a| - 1), Drop(o, |a|));
    }
  }

  /** Replay depends on the oracle only through the replies it gives. */
  lemma {:induction false} ReplayOracleExt(s: State, reqs: seq<Request>, o1: Oracle, o2: Oracle)
    requires forall i: nat :: ReplyAt(o1, i) == ReplyAt(o2, i)
    ensures Replay(s, reqs, o1) == Replay(s, reqs, o2)
    decreases |reqs|
  {
    if reqs != [] {
      ReplayOracleExt(Step(s, reqs[0], ReplyAt(o1, 0)), reqs[1..], Drop(o1, 1), Drop(o2, 1));
    }
  }

  /** Nameserver writes leave the zones and the domain records as they were. */
  lemma {:induction false} ReplayNameserverWritesFrame(s: State, reqs: seq<Request>, o: Oracle)
    requires forall i | 0 <= i < |reqs| :: reqs[i].DeleteNameserver? || reqs[i].PostNameservers?
    ensures Replay(s, reqs, o).zones == s.zones && Replay(s, reqs, o).domains == s.domains
    decreases |reqs|
  {
    if reqs != [] {
      ReplayNameserverWritesFrame(Step(s, reqs[0], ReplyAt(o, 0)), reqs[1..], Drop(o, 1));
    }
  }

  /** Calls addressed to other domains leave a domain's records as they were. */
  lemma {:induction false} ReplayConfined(s: State, reqs: seq<Request>, o: Oracle, d: string)
    requires forall i | 0 <= i < |reqs| :: reqs[i].domain != d
    ensures Replay(s, reqs, o).NameserversOf(d) == s.NameserversOf(d)
    ensures Replay(s, reqs, o).ZonesOf(d) == s.ZonesOf(d)
    ensures Replay(s, reqs, o).DomainsNamed(d) == s.DomainsNamed(d)
    decreases |reqs|
  {
    if reqs != [] {
      StepConfined(s, reqs[0], ReplyAt(o, 0), d);
      ReplayConfined(Step(s, reqs[0], ReplyAt(o, 0)), reqs[1..], Drop(o, 1), d);
    }
  }
}

=== FILE: nameserver.dfy ===
/**
 * The `zone-ee_domain_nameserver` resource: one nameserver of a domain, addressed
 * by `(domain, hostname)`, with optional IPv4/IPv6 glue addresses. Both the
 * domain and the hostname force a new resource when they change, so no hook ever
 * renames a nameserver.
 */
module SingleNameserver {
  import opened Wrappers
  import opened Registrar
  import opened Executor

  /** The resource's local state: ID and attributes; an unset glue address is "". */
  datatype NameserverState = NameserverState(id: string, domain: string, hostname: string, ipv4: string, ipv6: string)

  /** The ID Create gives the resource. */
  function ResourceId(domain: string, hostname: string): string {
    domain + "/" + hostname
  }

  /** A glue attribute as it goes on the wire: only when it is set (not ""). */
  function Glue(attr: string): (r: Option<string>)
    ensures r.GetOr("") == attr
    ensures r.Some? <==> attr != ""
  {
    if attr == "" then None else Some(attr)
  }

  /** The record Create posts and Update puts: the hostname, plus each glue address
      that is set. */
  function Payload(local: NameserverState): Nameserver {
    Nameserver(local.hostname, Glue(local.ipv4), Glue(local.ipv6))
  }

  /** How Read maps the records listed under the hostname onto the local state:
      an empty listing clears the ID, otherwise the first record's fields are copied. */
  function Observe(local: NameserverState, found: seq<Nameserver>): (r: NameserverState)
    ensures r.domain == local.domain
    ensures found == [] ==> r == local.(id := "")
    ensures found != [] ==> r.id == local.id && r.hostname == found[0].hostname
    ensures found != [] ==> r.ipv4 == found[0].ipv4.GetOr("") && r.ipv6 == found[0].ipv6.GetOr("")
  {
    if found == [] then local.(id := "")
    else local.(hostname := found[0].hostname, ipv4 := found[0].ipv4.GetOr(""), ipv6 := found[0].ipv6.GetOr(""))
  }

  /** Only the first listed record matters to Read. */
  lemma ObserveFirstOnly(local: NameserverState, first: Nameserver, rest: seq<Nameserver>)
    ensures Observe(local, [first] + rest) == Observe(local, [first])
  {
  }

  /** Read: GET the records under `(domain, hostname)` and observe them. */
  function Read(local: NameserverState, reg: State, o: Oracle): (r: Outcome<NameserverState>)
    ensures r.calls == [GetNameserver(local.domain, local.hostname)]
    ensures r.reg == reg
    ensures r.err.None? <==> ReplyAt(o, 0).Delivered()
    ensures r.err.None? ==> r.local == Observe(local, Named(reg.NameserversOf(local.domain), local.hostname))
    ensures r.err.Some? ==> r.local == local
  {
    var get := GetNameserver(local.domain, local.hostname);
    match Fetch(ReplyAt(o, 0), Named(reg.NameserversOf(local.domain), local.hostname))
    case Failure(e) => Outcome(local, reg, [get], Some(e))
    case Success(found) => Outcome(Observe(local, found), reg, [get], None)
  }

  /** Create: POST a one-element list holding this nameserver; unless the POST fails
      in transport, take `domain/hostname` as ID and read back. The POST's HTTP
      status is not looked at. */
  function Create(local: NameserverState, reg: State, o: Oracle): (r: Outcome<NameserverState>)
    ensures 1 <= |r.calls| && r.calls[0] == PostNameservers(local.domain, [Payload(local)])
    ensures r.err.Some? && !ReplyAt(o, 0).Response? ==> r.local == local && |r.calls| == 1
    ensures ReplyAt(o, 0).Response? ==> r.calls == [r.calls[0], GetNameserver(local.domain, local.hostname)]
    ensures ReplyAt(o, 0).Response? ==> r.local.id == ResourceId(local.domain, local.hostname) || r.local.id == ""
    ensures r.reg.zones == reg.zones && r.reg.domains == reg.domains
  {
    var post := PostNameservers(local.domain, [Payload(local)]);
    var x := Execute(reg, [post], o);
    assert [post][..x.issued] == [post] || x.issued == 0;
    if x.err.Some? then Outcome(local, x.reg, [post], x.err)
    else Then([post], Read(local.(id := ResourceId(local.domain, local.hostname)), x.reg, Drop(o, 1)))
  }

  /** Update: one PUT of the record to `(domain, hostname)`, then a read. */
  function Update(local: NameserverState, reg: State, o: Oracle): (r: Outcome<NameserverState>)
    ensures 1 <= |r.calls| && r.calls[0] == PutNameserver(local.domain, local.hostname, Payload(local))
    ensures r.calls[0].record.hostname == local.hostname
    ensures r.local.id == local.id || r.local.id == ""
    ensures r.local.domain == local.domain && r.local.hostname == local.hostname
    ensures !ReplyAt(o, 0).Response? ==> r.err.Some? && r.local == local && |r.calls| == 1
    ensures ReplyAt(o, 0).Response? ==> r.calls == [r.calls[0], GetNameserver(local.domain, local.hostname)]
    ensures r.reg.zones == reg.zones && r.reg.domains == reg.domains
  {
    var put := PutNameserver(local.domain, local.hostname, Payload(local));
    var x := Execute(reg, [put], o);
    assert [put][..x.issued] == [put] || x.issued == 0;
    if x.err.Some? then Outcome(local, x.reg, [put], x.err)
    else
      var found := Named(x.reg.NameserversOf(local.domain), local.hostname);
      assert found != [] ==> found[0] in found;
      Then([put], Read(local, x.reg, Drop(o, 1)))
  }

  /** Delete: one DELETE of `(domain, hostname)`; the ID is cleared unless it failed
      in transport. The records under the hostname are gone exactly when the
      registrar carried the DELETE out, which a lost response does not rule out. */
  function Delete(local: NameserverState, reg: State, o: Oracle): (r: Outcome<NameserverState>)
    ensures r.calls == [DeleteNameserver(local.domain, local.hostname)]
    ensures r.err.None? <==> ReplyAt(o, 0).Response?
    ensures r.err.None? ==> r.local == local.(id := "")
    ensures r.err.Some? ==> r.local == local
    ensures !ReplyAt(o, 0).TookEffect() ==> r.reg == reg
    ensures ReplyAt(o, 0).TookEffect() ==>
              r.reg.NameserversOf(local.domain) == Without(reg.NameserversOf(local.domain), local.hostname)
    ensures r.reg.zones == reg.zones && r.reg.domains == reg.domains
  {
    var del := DeleteNameserver(local.domain, local.hostname);
    var x := Execute(reg, [del], o);
    Outcome(if x.err.Some? then local else local.(id := ""), x.reg, [del], x.err)
  }

  /** With every call answered and no record yet under the hostname, Create appends
      exactly this nameserver to the domain's list, touches no other domain, and
      reads back the declared attributes under the ID `domain/hostname`. */
  lemma CreateRoundTrip(local: NameserverState, reg: State, o: Oracle)
    requires Healthy(o)
    requires Named(reg.NameserversOf(local.domain), local.hostname) == []
    ensures var r := Create(local, reg, o);
            && r.err.None?
            && r.local == local.(id := ResourceId(local.domain, local.hostname))
            && r.reg.NameserversOf(local.domain) == reg.NameserversOf(local.domain) + [Payload(local)]
            && (forall d | d != local.domain :: r.reg.NameserversOf(d) == reg.NameserversOf(d))
  {
    var post := PostNameservers(local.domain, [Payload(local)]);
    HealthyReplies(o, 0);
    HealthyReplies(o, 1);
    var x := Execute(reg, [post], o);
    assert [post][..x.issued] == [post];
    var list := reg.NameserversOf(local.domain);
    var found := Named(list + [Payload(local)], local.hostname);
    assert Payload(local) in found;
    forall x | x in found
      ensures x == Payload(local)
    {
      assert x in list + [Payload(local)];
    }
    assert found[0] == Payload(local);
  }

  /** Update re-puts the record in place: with every call answered and a record
      already under the hostname, every such record becomes the payload, every other
      record of the domain stays where it was, and the declared attributes read back.
      Other domains are the subject of `UpdateConfined`. */
  lemma UpdateRoundTrip(local: NameserverState, reg: State, o: Oracle)
    requires Healthy(o)
    requires Named(reg.NameserversOf(local.domain), local.hostname) != []
    ensures var r := Update(local, reg, o);
            var before := reg.NameserversOf(local.domain);
            var after := r.reg.NameserversOf(local.domain);
            && r.err.None?
            && r.local == local
            && |after| == |before|
            && (forall i | 0 <= i < |before| ::
                  after[i] == if before[i].hostname == local.hostname then Payload(local) else before[i])
  {
    var put := PutNameserver(local.domain, local.hostname, Payload(local));
    HealthyReplies(o, 0);
    HealthyReplies(o, 1);
    var x := Execute(reg, [put], o);
    assert [put][..x.issued] == [put];
    var before := reg.NameserversOf(local.domain);
    var after := Replace(before, local.hostname, Payload(local));
    var found := Named(after, local.hostname);
    var y := Named(before, local.hostname)[0];
    assert y in Named(before, local.hostname);
    var i :| 0 <= i < |before| && before[i] == y;
    assert after[i] in found;
    forall z | z in found
      ensures z == Payload(local)
    {
      var j :| 0 <= j < |after| && after[j] == z;
    }
    assert found[0] == Payload(local);
  }

  /** Whatever the replies, Update touches no other domain's nameservers. */
  lemma UpdateConfined(local: NameserverState, reg: State, o: Oracle)
    ensures forall d | d != local.domain :: Update(local, reg, o).reg.NameserversOf(d) == reg.NameserversOf(d)
  {
    var put := PutNameserver(local.domain, local.hostname, Payload(local));
    var x := Execute(reg, [put], o);
    assert [put][..x.issued] == [put] || x.issued == 0;
  }

  /** Delete removes every record under the hostname and keeps all other records of
      the domain, in order; no other domain is touched. */
  lemma DeleteLeavesOthers(local: NameserverState, reg: State, o: Oracle)
    requires ReplyAt(o, 0).Delivered()
    ensures var r := Delete(local, reg, o);
            && r.local.id == ""
            && r.reg.NameserversOf(local.domain) == Without(reg.NameserversOf(local.domain), local.hostname)
            && (forall d | d != local.domain :: r.reg.NameserversOf(d) == reg.NameserversOf(d))
  {
    var del := DeleteNameserver(local.domain, local.hostname);
    var x := Execute(reg, [del], o);
    assert [del][..x.issued] == [del];
  }

  /** A transport error on the one write ends every hook with the ID unchanged. */
  lemma TransportErrorKeepsId(local: NameserverState, reg: State, o: Oracle)
    requires ReplyAt(o, 0).TransportFailure?
    ensures Create(local, reg, o).local.id == local.id
    ensures Update(local, reg, o).local.id == local.id
    ensures Delete(local, reg, o).local.id == local.id
    ensures Create(local, reg, o).err == Some(Transport(ReplyAt(o, 0).reason))
  {
  }
}

=== FILE: nameservers.dfy ===
/**
 * The `zone-ee_domain_nameservers` resource: the whole nameserver set of one
 * domain, reconciled by full replacement. Create (and Update, which is Create)
 * reads the current records, deletes every one of them by hostname, then posts
 * the complete desired list in one call, so the domain passes through a state
 * with no nameservers even when nothing changes.
 */
module NameserverSet {
  import opened Wrappers
  import opened Registrar
  import opened Executor

  /** The resource's local state: its ID and its `domain` and `nameservers` attributes. */
  datatype SetState = SetState(id: string, domain: string, nameservers: seq<string>)

  /** One DELETE per existing record, in the order the registrar listed them. */
  function DeleteAll(domain: string, existing: seq<Nameserver>): (plan: seq<Request>)
    ensures |plan| == |existing|
    ensures forall i | 0 <= i < |plan| :: plan[i] == DeleteNameserver(domain, existing[i].hostname)
  {
    if existing == [] then []
    else [DeleteNameserver(domain, existing[0].hostname)] + DeleteAll(domain, existing[1..])
  }

  /** The full-replace plan: delete everything that is there, then post the whole
      desired list. It does not look at how `existing` and `desired` overlap. */
  function ReplacePlan(domain: string, existing: seq<Nameserver>, desired: seq<string>): (plan: seq<Request>)
    ensures |plan| == |existing| + 1
    ensures forall i | 0 <= i < |existing| :: plan[i] == DeleteNameserver(domain, existing[i].hostname)
    ensures plan[|existing|] == PostNameservers(domain, Records(desired))
    ensures forall i | 0 <= i < |plan| :: plan[i].domain == domain
  {
    DeleteAll(domain, existing) + [PostNameservers(domain, Records(desired))]
  }

  /** `list` with every record whose hostname is among `hostnames` removed, the
      others kept in order: what deleting those hostnames leaves. */
  function WithoutAll(list: seq<Nameserver>, hostnames: seq<string>): (r: seq<Nameserver>)
    ensures forall x :: x in r <==> x in list && x.hostname !in hostnames
  {
    if list == [] then []
    else (if list[0].hostname in hostnames then [] else [list[0]]) + WithoutAll(list[1..], hostnames)
  }

  /** Deleting one hostname and then some more is deleting all of them. */
  lemma {:induction false} WithoutThenWithoutAll(list: seq<Nameserver>, h: string, rest: seq<string>)
    ensures WithoutAll(Without(list, h), rest) == WithoutAll(list, [h] + rest)
    decreases |list|
  {
    if list != [] {
      WithoutThenWithoutAll(list[1..], h, rest);
      var t := Without(list[1..], h);
      var hs := [h] + rest;
      assert hs[1..] == rest;
      if list[0].hostname == h {
        assert Without(list, h) == t;
        assert list[0].hostname in hs;
        assert WithoutAll(list, hs) == WithoutAll(list[1..], hs);
      } else {
        assert Without(list, h) == [list[0]] + t;
        assert ([list[0]] + t)[1..] == t;
        assert (list[0].hostname in hs) == (list[0].hostname in rest);
        assert WithoutAll([list[0]] + t, rest)
            == (if list[0].hostname in rest then [] else [list[0]]) + WithoutAll(t, rest);
      }
    }
  }

  /** Deleting no hostname leaves the list as it was. */
  lemma {:induction false} WithoutNone(list: seq<Nameserver>)
    ensures WithoutAll(list, []) == list
    decreases |list|
  {
    if list != [] {
      WithoutNone(list[1..]);
      assert list == [list[0]] + list[1..];
    }
  }

  /** Deleting a set of hostnames that covers every record leaves nothing. */
  lemma {:induction false} WithoutAllCovered(list: seq<Nameserver>, hostnames: seq<string>)
    requires forall i | 0 <= i < |list| :: list[i].hostname in hostnames
    ensures WithoutAll(list, hostnames) == []
    decreases |list|
  {
    if list != [] {
      WithoutAllCovered(list[1..], hostnames);
    }
  }

  /** Deleting every hostname a list holds leaves it empty. */
  lemma WithoutAllOwnHostnames(list: seq<Nameserver>)
    ensures WithoutAll(list, Hostnames(list)) == []
  {
    var hs := Hostnames(list);
    assert forall i | 0 <= i < |list| :: list[i].hostname == hs[i];
    WithoutAllCovered(list, hs);
  }

  /** Read: the `nameservers` attribute becomes the hostnames the registrar lists,
      in its order; the ID is kept, even when the list is empty. */
  function Read(local: SetState, reg: State, o: Oracle): (r: Outcome<SetState>)
    ensures r.calls == [GetNameservers(local.domain)]
    ensures r.reg == reg
    ensures r.local.id == local.id && r.local.domain == local.domain
    ensures r.err.None? <==> ReplyAt(o, 0).Delivered()
    ensures r.err.None? ==> r.local.nameservers == Hostnames(reg.NameserversOf(local.domain))
    ensures r.err.Some? ==> r.local == local
  {
    var get := GetNameservers(local.domain);
    match Fetch(ReplyAt(o, 0), reg.NameserversOf(local.domain))
    case Failure(e) => Outcome(local, reg, [get], Some(e))
    case Success(found) => Outcome(local.(nameservers := Hostnames(found)), reg, [get], None)
  }

  /** Create: read the current records, run the full-replace plan, and on success
      take the domain as ID and read back. A failed read ends it before any write. */
  function Create(local: SetState, reg: State, o: Oracle): (r: Outcome<SetState>)
    ensures 1 <= |r.calls| && r.calls[0] == GetNameservers(local.domain)
    ensures !ReplyAt(o, 0).Delivered() ==>
              r.err.Some? && r.calls == [GetNameservers(local.domain)] && r.reg == reg && r.local == local
    ensures r.err.None? ==> r.local.id == local.domain
    ensures r.local.id == local.id || r.local.id == local.domain
    ensures r.local.domain == local.domain
    ensures r.reg.zones == reg.zones && r.reg.domains == reg.domains
  {
    var get := GetNameservers(local.domain);
    match Fetch(ReplyAt(o, 0), reg.NameserversOf(local.domain))
    case Failure(e) => Outcome(local, reg, [get], Some(e))
    case Success(existing) =>
      var plan := ReplacePlan(local.domain, existing, local.nameservers);
      var x := Execute(reg, plan, Drop(o, 1));
      ReplayNameserverWritesFrame(reg, plan[..x.issued], Drop(o, 1));
      var sent := [get] + plan[..x.issued];
      if x.err.Some? then Outcome(local, x.reg, sent, x.err)
      else Then(sent, Read(local.(id := local.domain), x.reg, Drop(o, |sent|)))
  }

  /** Update replaces the set exactly as Create does. */
  function Update(local: SetState, reg: State, o: Oracle): (r: Outcome<SetState>)
    ensures r == Create(local, reg, o)
  {
    Create(local, reg, o)
  }

  /** Delete: read the current records and delete each one, in the order listed;
      the ID is cleared only when every DELETE went out. A failed read ends it
      before any DELETE. */
  function Delete(local: SetState, reg: State, o: Oracle): (r: Outcome<SetState>)
    ensures 1 <= |r.calls| && r.calls[0] == GetNameservers(local.domain)
    ensures !ReplyAt(o, 0).Delivered() ==>
              r.err.Some? && r.calls == [GetNameservers(local.domain)] && r.reg == reg && r.local == local
    ensures r.calls[1..] <= DeleteAll(local.domain, reg.NameserversOf(local.domain))
    ensures forall i | 1 <= i < |r.calls| :: r.calls[i].DeleteNameserver? && r.calls[i].domain == local.domain
    ensures r.err.None? ==> r.local == local.(id := "")
    ensures r.err.Some? ==> r.local == local
    ensures r.reg.zones == reg.zones && r.reg.domains == reg.domains
  {
    var get := GetNameservers(local.domain);
    match Fetch(ReplyAt(o, 0), reg.NameserversOf(local.domain))
    case Failure(e) => Outcome(local, reg, [get], Some(e))
    case Success(existing) =>
      var plan := DeleteAll(local.domain, existing);
      var x := Execute(reg, plan, Drop(o, 1));
      ReplayNameserverWritesFrame(reg, plan[..x.issued], Drop(o, 1));
      assert ([get] + plan[..x.issued])[1..] == plan[..x.issued];
      Outcome(if x.err.Some? then local else local.(id := ""), x.reg, [get] + plan[..x.issued], x.err)
  }

  /** Replaying deletions that all take effect removes exactly their hostnames. */
  lemma {:induction false} ReplayDeletes(s: State, d: string, existing: seq<Nameserver>, o: Oracle)
    requires forall i | 0 <= i < |existing| :: ReplyAt(o, i).TookEffect()
    ensures Replay(s, DeleteAll(d, existing), o).NameserversOf(d)
         == WithoutAll(s.NameserversOf(d), Hostnames(existing))
    decreases |existing|
  {
    if existing == [] {
      WithoutNone(s.NameserversOf(d));
    } else {
      var s1 := Step(s, DeleteNameserver(d, existing[0].hostname), ReplyAt(o, 0));
      assert s1.NameserversOf(d) == Without(s.NameserversOf(d), existing[0].hostname);
      var plan := DeleteAll(d, existing);
      assert plan[0] == DeleteNameserver(d, existing[0].hostname);
      assert plan[1..] == DeleteAll(d, existing[1..]);
      assert Replay(s, plan, o) == Replay(s1, DeleteAll(d, existing[1..]), Drop(o, 1));
      assert Hostnames(existing) == [existing[0].hostname] + Hostnames(existing[1..]);
      ReplayDeletes(s1, d, existing[1..], Drop(o, 1));
      WithoutThenWithoutAll(s.NameserversOf(d), existing[0].hostname, Hostnames(existing[1..]));
    }
  }

  /** A plan addressed to one domain leaves every other domain's nameservers alone. */
  lemma PlanConfined(s: State, d: string, plan: seq<Request>, o: Oracle)
    requires forall i | 0 <= i < |plan| :: plan[i].domain == d
    ensures forall d' | d' != d :: Replay(s, plan, o).NameserversOf(d') == s.NameserversOf(d')
  {
    forall d' | d' != d
      ensures Replay(s, plan, o).NameserversOf(d') == s.NameserversOf(d')
    {
      ReplayConfined(s, plan, o, d');
    }
  }

  /** Whatever the replies, Create touches no other domain's nameservers: every
      call it makes is addressed to its own domain. */
  lemma CreateConfined(local: SetState, reg: State, o: Oracle)
    ensures forall d | d != local.domain :: Create(local, reg, o).reg.NameserversOf(d) == reg.NameserversOf(d)
  {
    if ReplyAt(o, 0).Delivered() {
      var plan := ReplacePlan(local.domain, reg.NameserversOf(local.domain), local.nameservers);
      var x := Execute(reg, plan, Drop(o, 1));
      PlanConfined(reg, local.domain, plan[..x.issued], Drop(o, 1));
    }
  }

  /** Whatever the replies, Delete touches no other domain's nameservers. */
  lemma DeleteConfined(local: SetState, reg: State, o: Oracle)
    ensures forall d | d != local.domain :: Delete(local, reg, o).reg.NameserversOf(d) == reg.NameserversOf(d)
  {
    if ReplyAt(o, 0).Delivered() {
      var plan := DeleteAll(local.domain, reg.NameserversOf(local.domain));
      var x := Execute(reg, plan, Drop(o, 1));
      PlanConfined(reg, local.domain, plan[..x.issued], Drop(o, 1));
    }
  }

  /** Create issues the whole plan, in order, whatever HTTP status the DELETEs and
      the POST receive: only a transport error would stop it. */
  lemma CreateIgnoresWriteStatus(local: SetState, reg: State, o: Oracle)
    requires ReplyAt(o, 0).Delivered()
    requires forall j | 1 <= j <= |reg.NameserversOf(local.domain)| + 1 :: !ReplyAt(o, j).TransportFailure?
    ensures var existing := reg.NameserversOf(local.domain);
            var r := Create(local, reg, o);
            && |r.calls| == |existing| + 3
            && r.calls[..|existing| + 2]
               == [GetNameservers(local.domain)] + ReplacePlan(local.domain, existing, local.nameservers)
            && r.calls[|existing| + 2] == GetNameservers(local.domain)
            && r.local.id == local.domain
  {
    var existing := reg.NameserversOf(local.domain);
    var plan := ReplacePlan(local.domain, existing, local.nameservers);
    forall j | 0 <= j < |plan|
      ensures Abort(plan[j], ReplyAt(Drop(o, 1), j)).None?
    {
      assert ReplyAt(Drop(o, 1), j) == ReplyAt(o, 1 + j);
    }
    var x := Execute(reg, plan, Drop(o, 1));
    assert x.issued == |plan|;
    assert plan[..x.issued] == plan;
  }

  /** Replaying the full-replace plan with every call taking effect leaves the
      domain holding exactly the desired records. */
  lemma ReplayReplace(s: State, d: string, desired: seq<string>, o: Oracle)
    requires forall i | 0 <= i <= |s.NameserversOf(d)| :: ReplyAt(o, i).TookEffect()
    ensures Replay(s, ReplacePlan(d, s.NameserversOf(d), desired), o).NameserversOf(d) == Records(desired)
  {
    var existing := s.NameserversOf(d);
    var deletes := DeleteAll(d, existing);
    var post := PostNameservers(d, Records(desired));
    ReplayDeletes(s, d, existing, o);
    WithoutAllOwnHostnames(existing);
    ReplayAppend(s, deletes, [post], o);
    var mid := Replay(s, deletes, o);
    assert Replay(mid, [post], Drop(o, |deletes|)) == Step(mid, post, ReplyAt(o, |existing|));
  }

  /** Replaying the full-replace plan up to its k-th call, every call before it
      taking effect: if the k-th call did not take effect, exactly the hostnames
      deleted before it are gone; if it did, the k-th hostname is gone too, or,
      when the k-th call is the POST, the desired records are in place. */
  lemma ReplayReplacePrefix(s: State, d: string, desired: seq<string>, o: Oracle, k: nat)
    requires k <= |s.NameserversOf(d)|
    requires forall i | 0 <= i < k :: ReplyAt(o, i).TookEffect()
    ensures var existing := s.NameserversOf(d);
            var after := Replay(s, ReplacePlan(d, existing, desired)[..k + 1], o).NameserversOf(d);
            && (!ReplyAt(o, k).TookEffect() ==> after == WithoutAll(existing, Hostnames(existing[..k])))
            && (ReplyAt(o, k).TookEffect() && k < |existing| ==> after == WithoutAll(existing, Hostnames(existing[..k + 1])))
            && (ReplyAt(o, k).TookEffect() && k == |existing| ==> after == Records(desired))
  {
    var existing := s.NameserversOf(d);
    var plan := ReplacePlan(d, existing, desired);
    if !ReplyAt(o, k).TookEffect() {
      var before := DeleteAll(d, existing[..k]);
      assert plan[..k + 1] == before + [plan[k]];
      ReplayAppend(s, before, [plan[k]], o);
      ReplayDeletes(s, d, existing[..k], o);
      var mid := Replay(s, before, o);
      assert Replay(mid, [plan[k]], Drop(o, k)) == Step(mid, plan[k], ReplyAt(o, k)) == mid;
    } else if k < |existing| {
      assert plan[..k + 1] == DeleteAll(d, existing[..k + 1]);
      ReplayDeletes(s, d, existing[..k + 1], o);
    } else {
      assert plan[..k + 1] == plan;
      ReplayReplace(s, d, desired, o);
    }
  }

  /** With every call answered, Create leaves the registrar holding exactly the
      desired list for the domain, other domains untouched, and reads that list back. */
  lemma CreateConverges(local: SetState, reg: State, o: Oracle)
    requires Healthy(o)
    ensures var r := Create(local, reg, o);
            && r.err.None?
            && r.local == local.(id := local.domain)
            && r.reg.NameserversOf(local.domain) == Records(local.nameservers)
            && (forall d | d != local.domain :: r.reg.NameserversOf(d) == reg.NameserversOf(d))
            && |r.calls| == |reg.NameserversOf(local.domain)| + 3
  {
    var d := local.domain;
    var existing := reg.NameserversOf(d);
    var plan := ReplacePlan(d, existing, local.nameservers);
    HealthyReplies(o, 0);
    forall j | 0 <= j < |plan|
      ensures ReplyAt(Drop(o, 1), j).Delivered()
    {
      HealthyReplies(o, 1 + j);
    }
    var x := Execute(reg, plan, Drop(o, 1));
    assert plan[..x.issued] == plan;
    ReplayReplace(reg, d, local.nameservers, Drop(o, 1));
    PlanConfined(reg, d, plan, Drop(o, 1));
    HealthyReplies(o, |plan| + 1);
    assert Hostnames(Records(local.nameservers)) == local.nameservers;
  }

  /** A DELETE that fails in transport ends Create, whatever statuses the DELETEs
      before it received: no later DELETE and no POST is sent, the ID is left as it
      was, and the transport error is reported. */
  lemma CreateStopsAtFailedDelete(local: SetState, reg: State, o: Oracle, k: nat)
    requires k < |reg.NameserversOf(local.domain)|
    requires ReplyAt(o, 0).Delivered()
    requires forall j | 1 <= j <= k :: !ReplyAt(o, j).TransportFailure?
    requires ReplyAt(o, k + 1).TransportFailure?
    ensures var existing := reg.NameserversOf(local.domain);
            var r := Create(local, reg, o);
            && r.err == Some(Transport(ReplyAt(o, k + 1).reason))
            && r.calls == [GetNameservers(local.domain)] + DeleteAll(local.domain, existing[..k + 1])
            && r.local == local
  {
    var d := local.domain;
    var existing := reg.NameserversOf(d);
    var plan := ReplacePlan(d, existing, local.nameservers);
    forall j | 0 <= j < k
      ensures Abort(plan[j], ReplyAt(Drop(o, 1), j)).None?
    {
      assert ReplyAt(Drop(o, 1), j) == ReplyAt(o, 1 + j);
      assert plan[j].DeleteNameserver?;
    }
    assert ReplyAt(Drop(o, 1), k) == ReplyAt(o, k + 1);
    ExecuteStopsAt(reg, plan, Drop(o, 1), k);
    assert plan[..k + 1] == DeleteAll(d, existing[..k + 1]);
  }

  /** When the DELETEs before the failed one all went through, exactly their
      hostnames are gone, and the failed one's too exactly when the registrar
      carried it out before the error. */
  lemma FailedDeleteLeaves(local: SetState, reg: State, o: Oracle, k: nat)
    requires k < |reg.NameserversOf(local.domain)|
    requires forall j | 0 <= j <= k :: ReplyAt(o, j).Delivered()
    requires ReplyAt(o, k + 1).TransportFailure?
    ensures var existing := reg.NameserversOf(local.domain);
            Create(local, reg, o).reg.NameserversOf(local.domain)
            == WithoutAll(existing, Hostnames(existing[..if ReplyAt(o, k + 1).applied then k + 1 else k]))
  {
    var d := local.domain;
    var existing := reg.NameserversOf(d);
    var plan := ReplacePlan(d, existing, local.nameservers);
    forall j | 0 <= j <= k
      ensures ReplyAt(Drop(o, 1), j) == ReplyAt(o, 1 + j)
    {
    }
    ExecuteStopsAt(reg, plan, Drop(o, 1), k);
    ReplayReplacePrefix(reg, d, local.nameservers, Drop(o, 1), k);
  }

  /** If every DELETE went through but the POST failed in transport, Create reports
      an error and keeps the ID. When the POST never reached the registrar, the
      domain is left with no nameservers, a Read reports an empty list, and the next
      Create plans no deletion at all, only the POST of the desired list. When the
      registrar carried the POST out before the error, the desired list is in place
      and a Read reports it. */
  lemma RecoverAfterFailedPost(local: SetState, reg: State, o: Oracle)
    requires forall j | 0 <= j <= |reg.NameserversOf(local.domain)| :: ReplyAt(o, j).Delivered()
    requires ReplyAt(o, |reg.NameserversOf(local.domain)| + 1).TransportFailure?
    ensures var r := Create(local, reg, o);
            var applied := ReplyAt(o, |reg.NameserversOf(local.domain)| + 1).applied;
            && r.err.Some?
            && r.local == local
            && (!applied ==> r.reg.NameserversOf(local.domain) == []
                             && Read(local, r.reg, []).local.nameservers == []
                             && ReplacePlan(local.domain, r.reg.NameserversOf(local.domain), local.nameservers)
                                == [PostNameservers(local.domain, Records(local.nameservers))])
            && (applied ==> r.reg.NameserversOf(local.domain) == Records(local.nameservers)
                            && Read(local, r.reg, []).local.nameservers == local.nameservers)
  {
    var d := local.domain;
    var existing := reg.NameserversOf(d);
    var plan := ReplacePlan(d, existing, local.nameservers);
    var k := |existing|;
    forall j | 0 <= j <= k
      ensures ReplyAt(Drop(o, 1), j) == ReplyAt(o, 1 + j)
    {
    }
    ExecuteStopsAt(reg, plan, Drop(o, 1), k);
    ReplayReplacePrefix(reg, d, local.nameservers, Drop(o, 1), k);
    assert existing[..k] == existing;
    WithoutAllOwnHostnames(existing);
    assert Hostnames(Records(local.nameservers)) == local.nameservers;
  }

  /** Delete clears the ID exactly when the listing was read and no DELETE failed in
      transport; an error status on a DELETE does not stop it. */
  lemma DeleteSucceedsIff(local: SetState, reg: State, o: Oracle)
    ensures Delete(local, reg, o).err.None?
        <==> ReplyAt(o, 0).Delivered()
             && forall j | 1 <= j <= |reg.NameserversOf(local.domain)| :: !ReplyAt(o, j).TransportFailure?
  {
    var existing := reg.NameserversOf(local.domain);
    var plan := DeleteAll(local.domain, existing);
    if ReplyAt(o, 0).Delivered() {
      var x := Execute(reg, plan, Drop(o, 1));
      forall j | 0 <= j < |plan|
        ensures ReplyAt(Drop(o, 1), j) == ReplyAt(o, 1 + j)
      {
      }
      if x.err.None? {
        forall j | 1 <= j <= |existing|
          ensures !ReplyAt(o, j).TransportFailure?
        {
          assert Abort(plan[j - 1], ReplyAt(Drop(o, 1), j - 1)).None?;
        }
      } else {
        assert ReplyAt(o, x.issued).TransportFailure?;
      }
    }
  }

  /** With every call answered, Delete removes all of the domain's nameservers, one
      DELETE per listed record, touches no other domain, and clears the ID. */
  lemma DeleteRemovesAll(local: SetState, reg: State, o: Oracle)
    requires Healthy(o)
    ensures var existing := reg.NameserversOf(local.domain);
            var r := Delete(local, reg, o);
            && r.err.None?
            && r.local.id == ""
            && r.calls == [GetNameservers(local.domain)] + DeleteAll(local.domain, existing)
            && r.reg.NameserversOf(local.domain) == []
            && (forall d | d != local.domain :: r.reg.NameserversOf(d) == reg.NameserversOf(d))
  {
    var d := local.domain;
    var existing := reg.NameserversOf(d);
    var plan := DeleteAll(d, existing);
    HealthyReplies(o, 0);
    forall j | 0 <= j < |plan|
      ensures ReplyAt(Drop(o, 1), j).Delivered()
    {
      HealthyReplies(o, 1 + j);
    }
    var x := Execute(reg, plan, Drop(o, 1));
    assert plan[..x.issued] == plan;
    ReplayDeletes(reg, d, existing, Drop(o, 1));
    WithoutAllOwnHostnames(existing);
    PlanConfined(reg, d, plan, Drop(o, 1));
  }

  /** The plan for a set that is already as desired still deletes every hostname and
      posts them all again. */
  lemma ReplaceEvenWhenConverged(domain: string, desired: seq<string>)
    ensures var plan := ReplacePlan(domain, Records(desired), desired);
            && |plan| == |desired| + 1
            && (forall i | 0 <= i < |desired| :: plan[i] == DeleteNameserver(domain, desired[i]))
            && plan[|desired|] == PostNameservers(domain, Records(desired))
  {
  }

  /** One old nameserver replaced by two new ones. */
  lemma ReplaceExample()
    ensures ReplacePlan("example.com", Records(["ns0.example.com"]), ["ns1.example.com", "ns2.example.com"])
         == [ DeleteNameserver("example.com", "ns0.example.com"),
              PostNameservers("example.com",
                [ Nameserver("ns1.example.com", None, None),
                  Nameserver("ns2.example.com", None, None) ]) ]
  {
    assert Records(["ns0.example.com"]) == [Nameserver("ns0.example.com", None, None)];
    assert Records(["ns1.example.com", "ns2.example.com"])
        == [Nameserver("ns1.example.com", None, None), Nameserver("ns2.example.com", None, None)];
  }
}

=== FILE: registrar.dfy ===
/**
 * The zone.ee registrar as an abstract state, the REST requests the provider issues
 * against it, the replies those requests can receive, and what one request that
 * took effect does to the state.
 */
module Registrar {
  import opened Wrappers

  /** A nameserver record: hostname plus optional glue addresses (fields left out
      of the JSON when empty). The whole-set resource fills only the hostname. */
  datatype Nameserver = Nameserver(hostname: string, ipv4: Option<string>, ipv6: Option<string>)

  /** DNSKEY flag values of a zone-signing and a key-signing key. */
  const ZoneSigningKey := 256
  const KeySigningKey := 257

  datatype DnsKey = DnsKey(flags: int, algorithm: int, publicKey: string)

  /** A DNS zone as the DNSSEC resource reads and writes it (`name`, `has_dnssec`, `dnssec_keys`). */
  datatype DnsZone = DnsZone(name: string, hasDnssec: bool, keys: seq<DnsKey>)

  /** The same zone as the DNSSEC data source decodes it (`identificator`, `dnssec`). */
  datatype ZoneSummary = ZoneSummary(identificator: string, dnssec: bool)

  /** A zone as the registrar stores it: it answers both decodings, which read
      different JSON fields of the same object. */
  datatype ZoneRecord = ZoneRecord(
    name: string, hasDnssec: bool, keys: seq<DnsKey>,
    identificator: string, dnssec: bool)
  {
    function AsDnsZone(): DnsZone {
      DnsZone(name, hasDnssec, keys)
    }

    function AsSummary(): ZoneSummary {
      ZoneSummary(identificator, dnssec)
    }
  }

  /** A registered domain; `expires` is kept as the opaque text the provider reports. */
  datatype DomainRecord = DomainRecord(name: string, autorenew: bool, status: string, expires: string)

  /** Everything the registrar holds, keyed by domain name. */
  datatype State = State(
    nameservers: map<string, seq<Nameserver>>,
    zones: map<string, ZoneRecord>,
    domains: map<string, DomainRecord>)
  {
    /** The array `GET /domain/{name}/nameserver` answers. */
    function NameserversOf(domain: string): seq<Nameserver> {
      if domain in nameservers then nameservers[domain] else []
    }

    /** The array `GET /dns/{name}` answers. */
    function ZonesOf(domain: string): seq<ZoneRecord> {
      if domain in zones then [zones[domain]] else []
    }

    /** The array `GET /domain/{name}` answers. */
    function DomainsNamed(domain: string): seq<DomainRecord> {
      if domain in domains then [domains[domain]] else []
    }

    function WithNameservers(domain: string, list: seq<Nameserver>): State {
      this.(nameservers := nameservers[domain := list])
    }
  }

  /** The records of `list` whose hostname is `hostname`, in order: the array
      `GET /domain/{name}/nameserver/{hostname}` answers. */
  function Named(list: seq<Nameserver>, hostname: string): (r: seq<Nameserver>)
    ensures forall x :: x in r <==> x in list && x.hostname == hostname
  {
    if list == [] then []
    else (if list[0].hostname == hostname then [list[0]] else []) + Named(list[1..], hostname)
  }

  /** `list` with every record named `hostname` removed, the others kept in order. */
  function Without(list: seq<Nameserver>, hostname: string): (r: seq<Nameserver>)
    ensures forall x :: x in r <==> x in list && x.hostname != hostname
    ensures |r| <= |list|
  {
    if list == [] then []
    else (if list[0].hostname == hostname then [] else [list[0]]) + Without(list[1..], hostname)
  }

  /** `list` with every record named `hostname` replaced by `record`. */
  function Replace(list: seq<Nameserver>, hostname: string, record: Nameserver): (r: seq<Nameserver>)
    ensures |r| == |list|
    ensures forall i | 0 <= i < |list| ::
      r[i] == (if list[i].hostname == hostname then record else list[i])
  {
    if list == [] then []
    else [if list[0].hostname == hostname then record else list[0]] + Replace(list[1..], hostname, record)
  }

  /** The hostnames of `list`, in order. */
  function Hostnames(list: seq<Nameserver>): (hs: seq<string>)
    ensures |hs| == |list|
    ensures forall i | 0 <= i < |list| :: hs[i] == list[i].hostname
  {
    if list == [] then [] else [list[0].hostname] + Hostnames(list[1..])
  }

  /** Hostname-only records, one per hostname, in order. */
  function Records(hostnames: seq<string>): (r: seq<Nameserver>)
    ensures |r| == |hostnames|
    ensures forall i | 0 <= i < |r| :: r[i] == Nameserver(hostnames[i], None, None)
  {
    if hostnames == [] then [] else [Nameserver(hostnames[0], None, None)] + Records(hostnames[1..])
  }

  /** Every REST call the provider makes, addressed by domain (and hostname). */
  datatype Request =
    | GetDomain(domain: string)
    | PutDomain(domain: string, autorenew: bool)
    | GetNameservers(domain: string)
    | GetNameserver(domain: string, hostname: string)
    | PostNameservers(domain: string, records: seq<Nameserver>)
    | PutNameserver(domain: string, hostname: string, record: Nameserver)
    | DeleteNameserver(domain: string, hostname: string)
    | GetZone(domain: string)
    | PutZone(domain: string, zone: DnsZone)
  {
    predicate IsRead() {
      GetDomain? || GetNameservers? || GetNameserver? || GetZone?
    }

    /** Whether the provider looks at the HTTP status of this call: reads go through
        the response parser, and the domain update checks the status itself. All
        other writes discard the response. */
    predicate InspectsStatus() {
      IsRead() || PutDomain?
    }
  }

  /** What a call can come back with: an HTTP response, or a transport error.
      A transport error covers a request that never reached the registrar
      (`applied` false) as well as one whose response was lost, for instance to
      the client's timeout, after the registrar had carried it out (`applied`
      true); the provider sees the same error either way. */
  datatype Reply = Response(status: int, body: string) | TransportFailure(reason: string, applied: bool) {
    /** The registrar accepted and carried out the request, and said so. */
    predicate Delivered() {
      Response? && status < 400
    }

    /** The registrar carried out the request, whether or not the provider heard back. */
    predicate TookEffect() {
      Delivered() || (TransportFailure? && applied)
    }
  }

  /** The replies to the calls of one lifecycle hook, by call number; every call
      past the end of the sequence is answered `200`. */
  type Oracle = seq<Reply>

  const DefaultReply := Response(200, "")

  function ReplyAt(o: Oracle, i: nat): Reply {
    if i < |o| then o[i] else DefaultReply
  }

  /** The replies left for the calls after the first `k`. */
  function Drop(o: Oracle, k: nat): (r: Oracle)
    ensures forall i: nat :: ReplyAt(r, i) == ReplyAt(o, k + i)
  {
    if k <= |o| then o[k..] else []
  }

  /** Every call is answered with a success status. */
  predicate Healthy(o: Oracle) {
    forall i | 0 <= i < |o| :: o[i].Delivered()
  }

  lemma HealthyReplies(o: Oracle, i: nat)
    requires Healthy(o)
    ensures ReplyAt(o, i).Delivered()
  {
  }

  /** The errors a hook reports. */
  datatype Error =
    | Transport(reason: string)             // the request itself failed
    | ApiFailure(status: int, body: string) // a read answered with status >= 400
    | UpdateRejected(body: string)          // the domain update answered with status >= 400
    | NoZoneFound(domain: string)           // the DNSSEC data source found no zone
    | InvalidFlags(flags: int)              // a DNSSEC key failed schema validation

  /** The error, if any, with which `reply` ends the hook that sent `req`. */
  function Abort(req: Request, reply: Reply): (e: Option<Error>)
    ensures reply.Delivered() ==> e.None?
    ensures reply.TransportFailure? ==> e == Some(Transport(reply.reason))
    ensures reply.Response? && !req.InspectsStatus() ==> e.None?
    ensures reply.Response? && req.InspectsStatus() ==> (e.None? <==> reply.status < 400)
    ensures reply.Response? && reply.status >= 400 && req.PutDomain? ==> e == Some(UpdateRejected(reply.body))
    ensures reply.Response? && reply.status >= 400 && req.IsRead() ==> e == Some(ApiFailure(reply.status, reply.body))
  {
    match reply
    case TransportFailure(reason, _) => Some(Transport(reason))
    case Response(status, body) =>
      if status < 400 || !req.InspectsStatus() then None
      else if req.PutDomain? then Some(UpdateRejected(body))
      else Some(ApiFailure(status, body))
  }

  /** Decoding a read's reply: an error status fails, otherwise the listing is returned. */
  function Fetch<T>(reply: Reply, listing: seq<T>): (r: Result<seq<T>, Error>)
    ensures r.Success? <==> reply.Delivered()
    ensures r.Success? ==> r.value == listing
    ensures reply.TransportFailure? ==> r == Failure(Transport(reply.reason))
  {
    match reply
    case TransportFailure(reason, _) => Failure(Transport(reason))
    case Response(status, body) =>
      if status >= 400 then Failure(ApiFailure(status, body)) else Success(listing)
  }

  /** What the registrar does when it carries out `req`. Reads change nothing;
      an update of a domain or zone the registrar does not hold changes nothing. */
  function Effect(s: State, req: Request): State {
    match req
    case PutDomain(d, autorenew) =>
      if d in s.domains then s.(domains := s.domains[d := s.domains[d].(autorenew := autorenew)]) else s
    case PostNameservers(d, records) => s.WithNameservers(d, s.NameserversOf(d) + records)
    case PutNameserver(d, h, record) => s.WithNameservers(d, Replace(s.NameserversOf(d), h, record))
    case DeleteNameserver(d, h) => s.WithNameservers(d, Without(s.NameserversOf(d), h))
    case PutZone(d, z) =>
      if d in s.zones
      then s.(zones := s.zones[d := s.zones[d].(name := z.name, hasDnssec := z.hasDnssec, keys := z.keys)])
      else s
    case _ => s
  }

  /** One call: the registrar's state after `req` received `reply`. */
  function Step(s: State, req: Request, reply: Reply): State {
    if reply.TookEffect() then Effect(s, req) else s
  }

  /** A call touches only the domain it is addressed to. */
  lemma StepConfined(s: State, req: Request, reply: Reply, d: string)
    requires req.domain != d
    ensures Step(s, req, reply).NameserversOf(d) == s.NameserversOf(d)
    ensures Step(s, req, reply).ZonesOf(d) == s.ZonesOf(d)
    ensures Step(s, req, reply).DomainsNamed(d) == s.DomainsNamed(d)
  {
  }
}

=== FILE: wrappers.dfy ===
/** Failure-carrying datatypes shared by the whole model. */
module Wrappers {

  /** A value that may be absent: an optional JSON field or an unset attribute. */
  datatype Option<+T> = None | Some(value: T) {

    /** The value, or `default` when absent. */
    function GetOr(default: T): T {
      match this
      case Some(v) => v
      case None => default
    }
  }

  /** The outcome of a step that either yields a value or fails with an error. */
  datatype Result<+R, +E> = Success(value: R) | Failure(error: E)
}
